=== FILE: README.md ===
# Batalha Naval — a Dafny model of the game core

Batalha Naval is a 10×10 Battleship game in C: the user plays against the CPU.
Each side has a board of cells. A cell is water `'~'`, an unhit ship `'S'`,
a hit `'X'` or a miss `'o'`. Ships of lengths 5, 4, 3, 3 and 2 are laid in one
of four orientations: right, down, down-right or up-right. The player places
ships by hand or at random. The CPU always places them at random: up to 1000
random trials, then an exhaustive scan. The game then alternates shots until
one side has no `'S'` cell left.

This project models that core in Dafny and proves its properties:

- `Grid` (`grid.dfy`): cells, boards, `init_board`, and `count_ships_left` as a
  nested-loop method proved equal to a per-row count.
- `Placement` (`placement.dfy`): the `dr`/`dc` direction tables, `can_place`,
  `place_ship`, and `place_ship_random`. The random trials and the fallback
  scan are separate functions.
- `Fleet` (`fleet.dfy`): the ship catalog and random set-up of a whole fleet.
  It includes the proof that random set-up of a fresh board always places all
  17 ship cells.
- `Coords` (`coords.dfy`): `parse_coord`, and the `%c%d` form the game prints
  cells in.
- `Combat` (`combat.dfy`): one shot, the code that `player_attack` and
  `cpu_attack` share.
- `Turns` (`turns.dfy`): the main game loop as a state machine with phases
  `PlayerTurn`, `OpponentTurn`, `PlayerWon` and `OpponentWon`.
- `Wrappers` (`wrappers.dfy`): `Option` and `Result`.

How the source's I/O and randomness are handled:

- Each `rand()` triple `(rand()%4, rand()%N, rand()%N)` used for placement
  becomes an element of a caller-supplied `seq<Candidate>`.
- Each CPU target cell is a `Coord` supplied to the step function.
- Each line the player types is a `string` supplied to the step function.

On these points the model follows the code:

- The error prompt at batalha.c:135 asks for a letter A-J followed by a number
  1-10, but `parse_coord` ignores whatever follows the digit run. `"A5xyz"` is A5, and
  `"B 1 0"` is B1. The digit run may have leading zeros (`"C010"` is C10).
- When no placement exists, `place_ship_random` does not report an error. It
  leaves the board as it was. The model shows this case as `Trial.at == None`.
  It also proves the case cannot happen during set-up (`Fleet.PlaceFleet`).
- Coordinates are always in range, so the model has no bounds error. They
  come from `parse_coord` or from `rand() % N`. The model
  types them as `Index` (0..9).
- After each player shot, `main` checks the CPU's remaining ship cells, even
  after a miss. `Turns.Step` does the same.

## Model

| member | source | states |
|---|---|---|
| Grid.InitBoard | batalha.c:26-28 | every cell of a fresh board is water |
| Grid.InitBoardHasNoShips | batalha.c:26-28 | a fresh board has no ship cell, and all 100 cells are open to a shot |
| Grid.CountShipsLeft | batalha.c:96-100 | the cell-by-cell scan returns the number of `'S'` cells, defined independently as a sum of per-row multiset counts |
| Grid.CountAfterWrite | batalha.c:96-100 | overwriting one cell changes each marker's count by exactly that cell: minus one for the old marker, plus one for the new |
| Grid.CountZeroIff | batalha.c:96-100 | a count is zero exactly when no cell holds that marker, so "no ships left" means no `'S'` anywhere |
| Placement.FootprintFollowsTables | batalha.c:22-23 | the k-th footprint cell is `(r + dr[d]*k, c + dc[d]*k)` with the four table entries |
| Placement.DirOf | batalha.c:20-23 | table positions 0..3 and the four orientations correspond one to one |
| Placement.OnFootprintIff | batalha.c:22-23 | the closed-form footprint test agrees with "some step k < size lands on the cell", in both directions |
| Placement.FootprintDistinct | batalha.c:22-23 | footprint cells are pairwise distinct, because no direction vector is zero |
| Placement.CanPlaceFrom | batalha.c:48-53 | the loop from step k on returns true exactly when every later footprint cell is on the board and is water |
| Placement.CanPlace | batalha.c:47-55 | can_place is true exactly when all `size` footprint cells lie in `[0,N)×[0,N)` and hold `'~'` |
| Placement.PlaceFirstCells | batalha.c:59-63 | after n steps of the loop, exactly the first n footprint cells are `'S'` and every other cell is unchanged |
| Placement.PlaceShip | batalha.c:58-64 | place_ship makes exactly the footprint cells `'S'` and leaves every other cell unchanged |
| Placement.PlaceStepCount | batalha.c:59-63 | writing the next footprint cell over water adds exactly one ship cell, because earlier steps never touched it |
| Placement.PlaceShipCount | batalha.c:47-64 | when can_place holds, place_ship raises the ship-cell count by exactly `size` |
| Placement.PlacedShipBlocks | batalha.c:47-64 | once a ship is committed, no ship whose footprint shares one of its cells can be placed |
| Placement.PlaceShipKeepsUnshot | batalha.c:58-64 | placement writes only `'S'`, so a board with no hits or misses still has none |
| Placement.ScanCols | batalha.c:84-89 | the column loop returns the first fitting column of its row, or reports that no column fits |
| Placement.ScanRows | batalha.c:83-90 | the row loop returns the scan-order first fit for its orientation, or reports that none fits |
| Placement.ScanDirs | batalha.c:82-91 | the orientation loop returns the scan-order first fit from orientation i on, or reports that none fits |
| Placement.Fallback | batalha.c:80-92 | the exhaustive scan finds the lexicographically first `(dir, r, c)` that fits, or None exactly when no triple fits |
| Placement.RandomPhase | batalha.c:70-79 | the random phase stops at the first of the 1000 draws that fits, or reports that none of them fits |
| Placement.ChooseSpot | batalha.c:67-93 | the ship goes to the first random draw that fits, else to the scan-order first fit; every skipped draw does not fit |
| Placement.PlaceShipRandom | batalha.c:67-93 | the ship goes where `ChooseSpot` says, and `used` is the number of draws that choice consumed; the result is a legal placement; the board is unchanged only when nothing fits; when anything fits the count grows by `size`; at most 1000 draws are used |
| Fleet.CatalogShape | batalha.c:18 | the catalog is five ships, each of length 1..5, with 17 cells in all |
| Fleet.PlaceFleet | batalha.c:190-193 | placing ships one by one uses at most 1000 draws times the number of ships, in all; a board with no shots still has none afterwards; when the board is unshot, every length is 1..5 and the total stays within 20 cells, the ship count grows by the sum of the lengths |
| Fleet.RoomForShip | batalha.c:80-92 | on a board with no shots and fewer than 20 ship cells, a ship of length at most 5 always fits somewhere, so the scan cannot come up empty |
| Fleet.NextShipFits | batalha.c:67-93 | with room for the remaining fleet, the next ship fits somewhere, and once it is placed there is room for the rest |
| Fleet.RandomSetupPlacesFleet | batalha.c:225-228 | random set-up of a fresh board always ends with 17 ship cells and no hits or misses |
| Coords.SkipSpaces | batalha.c:104 | the blank-skipping loop stops at the first non-blank character or at the end |
| Coords.DigitsEnd | batalha.c:113 | the digit loop stops at the first non-digit character or at the end |
| Coords.ParseComplete | batalha.c:103-118 | every input of that shape is accepted and yields the cell it names |
| Coords.ParseCoord | batalha.c:103-118 | parse_coord returns `(r, c)` exactly when the input is blanks, a letter A–J in either case, blanks, then a maximal digit run worth 1..10 naming row `r` and column `c`; it returns nothing for every other input |
| Coords.SplitsAtScan | batalha.c:104-113 | an input has at most one cut into that shape: the one where the blank and digit loops stop |
| Coords.DenotesAtScan | batalha.c:103-118 | an input names a cell exactly when the cut found by the scans names it |
| Coords.Decimal | batalha.c:146 | `%d` writes a non-empty run of digits |
| Coords.ValueOfDecimal | batalha.c:113 | reading the digits `%d` writes for n, with the parser's `num*10 + digit` rule, gives back n |
| Coords.ParseFormat | batalha.c:146 | typing back the printed name of a cell (`%c%d` of `'A'+c`, `r+1`) selects that cell |
| Combat.Fire | batalha.c:138-152 | a shot is refused exactly on an `'X'`/`'o'` cell; otherwise it hits exactly when the cell was `'S'`; the cell becomes `'X'` on a hit and `'o'` on a miss; no other cell changes |
| Combat.FireCounts | batalha.c:163-171 | a hit removes exactly one ship cell and adds one hit; a miss removes none; ships plus hits stay constant; one fewer cell is open to a shot |
| Combat.FireTwiceRejected | batalha.c:138-141 | shooting the same cell again is refused |
| Combat.FireMonotone | batalha.c:161-171 | a shot never un-attacks a cell and never creates a ship cell |
| Turns.PlayerMove | batalha.c:128-153 | the player's shot is accepted exactly when the line parses and names a cell not yet shot; it is then the shot at that cell, the player's board is untouched, and the CPU's turn follows unless no CPU ship cell is left, in which case the player has won |
| Turns.CpuMove | batalha.c:156-172 | the CPU's draw is accepted exactly when it names a cell of the player's board not yet shot; it is then the shot at that cell, the CPU's board is untouched, and the player's turn follows unless no player ship cell is left, in which case the CPU has won |
| Turns.Start | batalha.c:230-233 | the loop starts with the player's turn on the two set-up boards, and starts inside the invariant exactly when both fleets have a ship cell |
| Turns.Step | batalha.c:233-252 | a player step is accepted exactly when the line parses to an unattacked CPU cell, and is then the shot at that cell; a CPU step likewise for the drawn cell on the player's board; terminal states take no shots; a step that keeps the phase changes nothing; the player's turn leads only to the CPU's turn or victory and the CPU's turn only to the player's turn or defeat; victory (defeat) is reached exactly when the CPU's (player's) ship count hits zero |
| Turns.StepProgress | batalha.c:239-251 | every step that changes the game closes exactly one open cell and removes at most one ship cell |
| Turns.StepKeepsShots | batalha.c:138-141 | a step never reopens a cell: every cell of either board already shot keeps its `'X'` or `'o'` |
| Turns.StepKeepsInv | batalha.c:239-251 | while play goes on both fleets have a ship cell, and a finished game has exactly the loser's fleet destroyed |
| Turns.SideToMoveCanShoot | batalha.c:158-161 | in a running game the side to move always has a cell whose shot is accepted, so the CPU's redraw loop has a target and the player has a valid line |
| Turns.Run | batalha.c:233-252 | a run never reopens a cell: every cell already shot keeps its `'X'` or `'o'`; a run that closes no cell leaves the game unchanged; a finished game stays as it is |
| Turns.RunShotsBounded | batalha.c:233-252 | along any run, shots fired plus cells still open equals the cells open at the start, so no run fires more shots than there were open cells |
| Turns.RunKeepsInv | batalha.c:233-252 | the invariant holds along every run |
| Turns.RandomSetupStartsInInv | batalha.c:177-230 | after random set-up of both fresh boards the loop starts in the invariant with 17 ship cells on each side |

## Left out

- `print_board`, `read_line` and every `printf` prompt and message: terminal
  I/O. `read_line` reads at most 63 characters per call (batalha.c:121), so a
  longer line arrives as several lines: its first 63 characters, then the
  rest. At end of input it returns an empty line, which fails to parse. The
  model takes any sequence of lines, one per step, which covers both.
- The set-up menu and the manual placement loop in `main` (lines 183-187 and
  195-221): input glue around `parse_coord`, `can_place` and `place_ship`,
  which are modelled themselves.
- `srand`/`rand`: random draws are parameters (`seq<Candidate>` for placement,
  a `Coord` per CPU shot), not a pseudo-random generator.
- The termination of `cpu_attack`'s redraw loop is a matter of probability. A
  rejected draw is a step that changes nothing. `Turns.SideToMoveCanShoot`
  shows that an accepted target always exists.
- `ship_names`: display text only.
- C `int` overflow in `parse_coord`'s `num` on very long digit runs: the model
  uses mathematical integers.
- `isspace`, `isdigit` and `toupper` follow the C locale. An embedded `'\0'`
  fails every character test, so it behaves like any other rejected
  character; the model needs no terminator.
- Placement.CanPlace: `size` is a `nat`, not a C `int`. Every caller passes a
  catalog length. The source treats a size of 0 or less as an empty footprint.
- Placement.PlaceShip: requires every footprint cell to be on the board. The
  source writes without checking, and a write off the board is undefined
  behaviour in C. Every caller checks `can_place` first.
- Orientation indices outside 0..3 cannot occur: `Dir` has exactly four values.
  In the source they would read past the `dr`/`dc` tables.

=== FILE: combat.dfy ===
/** Resolution of one shot, the part player_attack and cpu_attack share (batalha.c:138-152, 161-171). */
module Combat {
  import opened Wrappers
  import opened Grid

  /** The only refusal: the cell already holds 'X' or 'o'. */
  datatype AttackError = AlreadyAttacked

  /** The board after a shot and whether it struck a ship (the source's return 1 / 0). */
  datatype Shot = Shot(board: Board, hit: bool)

  /**
   * One shot at (r, c): refused on an attacked cell, otherwise a ship cell
   * becomes a hit and a water cell becomes a miss.
   */
  function Fire(b: Board, r: Index, c: Index): (res: Result<Shot, AttackError>)
    ensures res.Failure? <==> Attacked(b[r][c])
    ensures res.Success? ==> (res.value.hit <==> b[r][c] == Ship)
    ensures res.Success? ==> Attacked(res.value.board[r][c])
    ensures res.Success? ==> (res.value.board[r][c] == Hit <==> res.value.hit)
    ensures res.Success? ==> forall i, j :: InBounds(i, j) && (i != r || j != c) ==> res.value.board[i][j] == b[i][j]
  {
    if b[r][c] == Hit || b[r][c] == Miss then Failure(AlreadyAttacked)
    else if b[r][c] == Ship then Success(Shot(Write(b, r, c, Hit), true))
    else Success(Shot(Write(b, r, c, Miss), false))
  }

  /**
   * A hit removes exactly one ship cell and a miss none; either way one
   * fewer cell is open to attack and ship-plus-hit cells stay constant.
   */
  lemma FireCounts(b: Board, r: Index, c: Index)
    requires Fire(b, r, c).Success?
    ensures var s := Fire(b, r, c).value;
            && ShipsLeft(s.board) == ShipsLeft(b) - (if s.hit then 1 else 0)
            && Count(s.board, Hit) == Count(b, Hit) + (if s.hit then 1 else 0)
            && ShipsLeft(s.board) + Count(s.board, Hit) == ShipsLeft(b) + Count(b, Hit)
            && Unattacked(s.board) == Unattacked(b) - 1
  {
    var s := Fire(b, r, c).value;
    var v := if s.hit then Hit else Miss;
    assert s.board == Write(b, r, c, v);
    CountAfterWrite(b, r, c, v, Ship);
    CountAfterWrite(b, r, c, v, Hit);
    CountAfterWrite(b, r, c, v, Water);
  }

  /** Shooting the same cell again is refused, and the refusal changes nothing. */
  lemma FireTwiceRejected(b: Board, r: Index, c: Index)
    requires Fire(b, r, c).Success?
    ensures Fire(Fire(b, r, c).value.board, r, c) == Failure(AlreadyAttacked)
  {
  }

  /** A shot never un-attacks a cell and never creates a ship cell. */
  lemma FireMonotone(b: Board, r: Index, c: Index, i: Index, j: Index)
    requires Fire(b, r, c).Success?
    ensures Attacked(b[i][j]) ==> Fire(b, r, c).value.board[i][j] == b[i][j]
    ensures Fire(b, r, c).value.board[i][j] == Ship ==> b[i][j] == Ship
  {
  }
}

=== FILE: coords.dfy ===
/** Board coordinates as text: parse_coord and the "%c%d" display of a cell (batalha.c:102-118, 146, 150, 162). */
module Coords {
  import opened Wrappers
  import opened Grid

  /** A cell address: row r (printed 1-10) and column c (printed A-J). */
  datatype Coord = Coord(r: Index, c: Index)

  /** isspace in the C locale: space, tab, newline, vertical tab, form feed, carriage return. */
  predicate IsSpace(ch: char) {
    ch == ' ' || '\t' <= ch <= '\r'
  }

  /** isdigit. */
  predicate IsDigit(ch: char) {
    '0' <= ch <= '9'
  }

  /** toupper in the C locale: only a-z change. */
  function ToUpper(ch: char): char {
    if 'a' <= ch <= 'z' then (ch as int - 32) as char else ch
  }

  function DigitValue(ch: char): nat
    requires IsDigit(ch)
  {
    ch as int - '0' as int
  }

  /** Value of a digit run, accumulated left to right as num = num*10 + digit. */
  function Value(ds: seq<char>): nat
    requires forall t :: 0 <= t < |ds| ==> IsDigit(ds[t])
  {
    if |ds| == 0 then 0 else Value(ds[..|ds| - 1]) * 10 + DigitValue(ds[|ds| - 1])
  }

  /** First position at or after i that is not white space (or the end). */
  function SkipSpaces(s: string, i: nat): (j: nat)
    requires i <= |s|
    decreases |s| - i
    ensures i <= j <= |s|
    ensures forall t :: i <= t < j ==> IsSpace(s[t])
    ensures j == |s| || !IsSpace(s[j])
  {
    if i == |s| || !IsSpace(s[i]) then i else SkipSpaces(s, i + 1)
  }

  /** First position at or after i that is not a digit (or the end). */
  function DigitsEnd(s: string, i: nat): (k: nat)
    requires i <= |s|
    decreases |s| - i
    ensures i <= k <= |s|
    ensures forall t :: i <= t < k ==> IsDigit(s[t])
    ensures k == |s| || !IsDigit(s[k])
  {
    if i == |s| || !IsDigit(s[i]) then i else DigitsEnd(s, i + 1)
  }

  /**
   * parse_coord: skip blanks, read a column letter, skip blanks, read a digit
   * run; text after the digits is ignored. None is the source's return 0.
   */
  function ParseCoord(s: string): (r: Option<Coord>)
    ensures forall p: Coord :: r == Some(p) <==> Denotes(s, p)
  {
    DenotesAtScan(s);
    var i := SkipSpaces(s, 0);
    if i == |s| then None
    else
      var col := ToUpper(s[i]);
      if !('A' <= col <= 'J') then None
      else
        var j := SkipSpaces(s, i + 1);
        if j == |s| then None
        else if !IsDigit(s[j]) then None
        else
          var k := DigitsEnd(s, j);
          var num := Value(s[j..k]);
          if num < 1 || num > 10 then None
          else Some(Coord(num - 1, col as int - 'A' as int))
  }

  /** A column letter in either case. */
  predicate IsColumn(ch: char) {
    'A' <= ch <= 'J' || 'a' <= ch <= 'j'
  }

  /** Column number named by a column letter. */
  function ColumnOf(ch: char): int {
    if 'a' <= ch <= 'z' then ch as int - 'a' as int else ch as int - 'A' as int
  }

  predicate AllSpaces(s: string, a: int, b: int)
    requires 0 <= a <= b <= |s|
  {
    forall t :: a <= t < b ==> IsSpace(s[t])
  }

  predicate AllDigits(s: string, a: int, b: int)
    requires 0 <= a <= b <= |s|
  {
    forall t :: a <= t < b ==> IsDigit(s[t])
  }

  /**
   * The accepted shape, cut at positions i < j < k: blanks, the letter s[i],
   * blanks, the maximal digit run s[j..k], then anything else.
   */
  predicate Splits(s: string, i: int, j: int, k: int) {
    && 0 <= i < j < k <= |s|
    && AllSpaces(s, 0, i)
    && IsColumn(s[i])
    && AllSpaces(s, i + 1, j)
    && AllDigits(s, j, k)
    && (k == |s| || !IsDigit(s[k]))
  }

  /** s names cell p: it has the accepted shape, the number is 1-10 and both indices match. */
  ghost predicate Denotes(s: string, p: Coord) {
    exists i, j, k :: Splits(s, i, j, k) && 1 <= Value(s[j..k]) <= 10
                      && p.c == ColumnOf(s[i]) && p.r == Value(s[j..k]) - 1
  }

  /** The only cut of an input into the accepted shape is where the blank and digit scans stop. */
  lemma SplitsAtScan(s: string)
    ensures forall i, j, k :: Splits(s, i, j, k) ==>
              i == SkipSpaces(s, 0) && j == SkipSpaces(s, i + 1) && k == DigitsEnd(s, j)
  {
    forall i, j, k | Splits(s, i, j, k)
      ensures i == SkipSpaces(s, 0) && j == SkipSpaces(s, i + 1) && k == DigitsEnd(s, j)
    {
      SkipSpacesStops(s, 0, i);
      SkipSpacesStops(s, i + 1, j);
      DigitsEndStops(s, j, k);
    }
  }

  /** s names p when cut where the blank and digit scans stop. */
  ghost predicate ScanNames(s: string, p: Coord) {
    var i := SkipSpaces(s, 0);
    && i < |s|
    && var j := SkipSpaces(s, i + 1);
       var k := DigitsEnd(s, j);
       && Splits(s, i, j, k) && 1 <= Value(s[j..k]) <= 10
       && p.c == ColumnOf(s[i]) && p.r == Value(s[j..k]) - 1
  }

  /** Naming a cell needs no search: the scans find the only possible cut. */
  lemma DenotesAtScan(s: string)
    ensures forall p: Coord :: Denotes(s, p) <==> ScanNames(s, p)
  {
    SplitsAtScan(s);
    forall p: Coord | ScanNames(s, p) ensures Denotes(s, p) {
      var i := SkipSpaces(s, 0);
      var j := SkipSpaces(s, i + 1);
      var k := DigitsEnd(s, j);
      assert Splits(s, i, j, k);
    }
  }

  /** An input of the accepted shape cut at i, j, k is accepted, with the cell it names. */
  lemma ParseComplete(s: string, i: int, j: int, k: int)
    requires Splits(s, i, j, k) && 1 <= Value(s[j..k]) <= 10
    ensures ParseCoord(s) == Some(Coord(Value(s[j..k]) - 1, ColumnOf(s[i])))
  {
  }

  /** SkipSpaces lands on the first non-blank. */
  lemma SkipSpacesStops(s: string, a: nat, m: nat)
    requires a <= m < |s| && AllSpaces(s, a, m) && !IsSpace(s[m])
    ensures SkipSpaces(s, a) == m
  {
  }

  /** DigitsEnd lands on the first non-digit. */
  lemma DigitsEndStops(s: string, a: nat, m: nat)
    requires a <= m <= |s| && AllDigits(s, a, m) && (m == |s| || !IsDigit(s[m]))
    ensures DigitsEnd(s, a) == m
  {
  }

  /** Decimal text of n, as printf's %d writes it. */
  function Decimal(n: nat): (ds: string)
    ensures |ds| > 0 && forall t :: 0 <= t < |ds| ==> IsDigit(ds[t])
  {
    if n < 10 then [('0' as int + n) as char]
    else Decimal(n / 10) + [('0' as int + n % 10) as char]
  }

  /** Reading back the digits printf writes gives the number. */
  lemma {:induction false} ValueOfDecimal(n: nat)
    ensures Value(Decimal(n)) == n
  {
    if n >= 10 {
      ValueOfDecimal(n / 10);
      var ds := Decimal(n);
      assert ds[..|ds| - 1] == Decimal(n / 10);
    }
  }

  /** A cell as the game prints it: column letter, then the 1-based row number. */
  function Format(p: Coord): string {
    [('A' as int + p.c) as char] + Decimal(p.r + 1)
  }

  /** Typing back a printed cell address selects that cell. */
  lemma ParseFormat(p: Coord)
    ensures ParseCoord(Format(p)) == Some(p)
  {
    var s := Format(p);
    ValueOfDecimal(p.r + 1);
    assert s[1..] == Decimal(p.r + 1);
    assert Splits(s, 0, 1, |s|);
    ParseComplete(s, 0, 1, |s|);
  }
}

=== FILE: fleet.dfy ===
/** The ship catalog and the random set-up of a whole fleet (batalha.c:15, 18, 190-193, 225-228). */
module Fleet {
  import opened Grid
  import opened Placement

  /** Lengths of the five ships, in the order they are placed (ship_sizes). */
  const ShipSizes: seq<nat> := [5, 4, 3, 3, 2]

  function Sum(s: seq<nat>): nat {
    if |s| == 0 then 0 else s[0] + Sum(s[1..])
  }

  /** A board after set-up, and how many rand() triples the set-up consumed. */
  datatype Deployed = Deployed(board: Board, used: nat)

  /**
   * Room for a fleet: no cell shot yet, every length between 1 and 5, and at
   * most 2N ship cells once every ship is placed.
   */
  ghost predicate Roomy(b: Board, sizes: seq<nat>) {
    && Unshot(b)
    && (forall k :: 0 <= k < |sizes| ==> 1 <= sizes[k] <= 5)
    && ShipsLeft(b) + Sum(sizes) <= 2 * N
  }

  /**
   * One place_ship_random per ship, each drawing from where the previous one
   * stopped. With room for the fleet the scan never comes up empty
   * (at == None never happens): every ship lands and the count grows by the
   * sum of the lengths.
   */
  function PlaceFleet(b: Board, sizes: seq<nat>, draws: seq<Candidate>): (res: Deployed)
    requires |draws| >= MaxAttempts * |sizes|
    ensures res.used <= MaxAttempts * |sizes|
    ensures Unshot(b) ==> Unshot(res.board)
    ensures Roomy(b, sizes) ==> ShipsLeft(res.board) == ShipsLeft(b) + Sum(sizes)
    decreases |sizes|
  {
    if |sizes| == 0 then Deployed(b, 0)
    else
      NextShipFits(b, sizes);
      var t := PlaceShipRandom(b, sizes[0], draws);
      var rest := PlaceFleet(t.board, sizes[1..], draws[t.used..]);
      Deployed(rest.board, t.used + rest.used)
  }

  /** With room for the fleet the next ship fits somewhere, and room is left for the others. */
  lemma NextShipFits(b: Board, sizes: seq<nat>)
    requires |sizes| > 0
    ensures Roomy(b, sizes) ==> exists x: Candidate :: FitsAt(b, sizes[0], x)
    ensures Roomy(b, sizes) ==> forall b': Board ::
              Unshot(b') && ShipsLeft(b') == ShipsLeft(b) + sizes[0] ==> Roomy(b', sizes[1..])
  {
    if Roomy(b, sizes) {
      RoomForShip(b, sizes[0]);
    }
  }

  lemma {:induction false} CrowdedRows(b: Board, n: nat)
    requires n <= N
    requires forall i :: 0 <= i < n ==> multiset(b[i])[Ship] >= 2
    ensures CountRows(b, n, Ship) >= 2 * n
  {
    if n > 0 {
      CrowdedRows(b, n - 1);
    }
  }

  /** With fewer than 2N ship cells some row holds at most one of them. */
  lemma SparseRow(b: Board) returns (i: Index)
    requires ShipsLeft(b) < 2 * N
    ensures multiset(b[i])[Ship] <= 1
  {
    if forall i :: 0 <= i < N ==> multiset(b[i])[Ship] >= 2 {
      CrowdedRows(b, N);
      assert false;
    }
    i :| 0 <= i < N && multiset(b[i])[Ship] < 2;
  }

  /** Two distinct positions holding x put x into the row's multiset twice. */
  lemma TwoInRow(row: seq<Cell>, p: nat, q: nat, x: Cell)
    requires p < q < |row| && row[p] == x && row[q] == x
    ensures multiset(row)[x] >= 2
  {
    assert row == row[..q] + row[q..];
    assert row[p] in row[..q];
    assert row[q] in row[q..];
  }

  /**
   * On an un-shot board with fewer than 2N ship cells a ship of length at
   * most 5 always fits horizontally: a row with at most one ship cell has
   * five consecutive water cells on one side of it.
   */
  lemma RoomForShip(b: Board, size: nat)
    requires Unshot(b) && ShipsLeft(b) < 2 * N && size <= 5
    ensures exists x: Candidate :: FitsAt(b, size, x)
  {
    var i := SparseRow(b);
    if forall j :: 0 <= j < 5 ==> b[i][j] != Ship {
      var x := Candidate(Right, i, 0);
      forall k | 0 <= k < size ensures FreeAt(b, i, 0, Right, k) {
        assert b[i][k] != Ship && !Attacked(b[i][k]);
      }
      assert FitsAt(b, size, x);
    } else {
      var p :| 0 <= p < 5 && b[i][p] == Ship;
      var x := Candidate(Right, i, 5);
      forall k | 0 <= k < size ensures FreeAt(b, i, 5, Right, k) {
        if b[i][5 + k] == Ship {
          TwoInRow(b[i], p, 5 + k, Ship);
        }
        assert !Attacked(b[i][5 + k]);
      }
      assert FitsAt(b, size, x);
    }
  }

  /** Random set-up of a fresh (all-water) board places the whole catalog: 17 ship cells, none shot. */
  lemma RandomSetupPlacesFleet(b: Board, draws: seq<Candidate>)
    requires forall i, j :: InBounds(i, j) ==> b[i][j] == Water
    requires |draws| >= MaxAttempts * |ShipSizes|
    ensures ShipsLeft(PlaceFleet(b, ShipSizes, draws).board) == Sum(ShipSizes) == 17
    ensures Unshot(PlaceFleet(b, ShipSizes, draws).board)
  {
    CatalogShape();
    CountZeroIff(b, Ship);
    assert Roomy(b, ShipSizes);
  }

  /** The catalog: five ships of length 1 to 5, 17 cells in all. */
  lemma CatalogShape()
    ensures |ShipSizes| == 5 && Sum(ShipSizes) == 17
    ensures forall k :: 0 <= k < |ShipSizes| ==> 1 <= ShipSizes[k] <= 5
  {
  }
}

=== FILE: grid.dfy ===
/** The 10x10 board of four-valued cells (batalha.c:14, 25-28, 95-100). */
module Grid {

  /** Side length of every board. */
  const N: int := 10

  /** A row or column number that lies on the board. */
  type Index = i: int | 0 <= i < N

  /** Cell markers: '~' water, 'S' unhit ship, 'X' hit ship, 'o' miss. */
  datatype Cell = Water | Ship | Hit | Miss

  predicate IsGrid(b: seq<seq<Cell>>) {
    |b| == N && forall i :: 0 <= i < |b| ==> |b[i]| == N
  }

  /** A board is N rows of N cells, indexed b[row][column]. */
  type Board = b: seq<seq<Cell>> | IsGrid(b) witness seq(N, _ => seq(N, _ => Water))

  predicate InBounds(r: int, c: int) {
    0 <= r < N && 0 <= c < N
  }

  /** A cell that has already been shot at. */
  predicate Attacked(x: Cell) {
    x == Hit || x == Miss
  }

  /** A fresh board: every cell is water. */
  function InitBoard(): (b: Board)
    ensures forall i, j :: InBounds(i, j) ==> b[i][j] == Water
  {
    seq(N, _ => seq(N, _ => Water))
  }

  /** The board with cell (r, c) overwritten by v and every other cell kept. */
  function Write(b: Board, r: Index, c: Index, v: Cell): (b': Board)
    ensures b'[r][c] == v
    ensures forall i, j :: InBounds(i, j) && (i != r || j != c) ==> b'[i][j] == b[i][j]
  {
    b[r := b[r][c := v]]
  }

  /** Number of cells holding x in the first n rows. */
  function CountRows(b: Board, n: nat, x: Cell): nat
    requires n <= N
  {
    if n == 0 then 0 else CountRows(b, n - 1, x) + multiset(b[n - 1])[x]
  }

  /** Number of cells of the whole board holding x. */
  function Count(b: Board, x: Cell): nat {
    CountRows(b, |b|, x)
  }

  /** Number of unhit ship cells: zero means the fleet is destroyed. */
  function ShipsLeft(b: Board): nat {
    Count(b, Ship)
  }

  /** Number of cells still open to an attack. */
  function Unattacked(b: Board): nat {
    Count(b, Water) + Count(b, Ship)
  }

  /** count_ships_left: the row-by-row, cell-by-cell scan of the source. */
  method CountShipsLeft(b: Board) returns (cnt: nat)
    ensures cnt == ShipsLeft(b)
  {
    cnt := 0;
    for i := 0 to N
      invariant cnt == CountRows(b, i, Ship)
    {
      for j := 0 to N
        invariant cnt == CountRows(b, i, Ship) + multiset(b[i][..j])[Ship]
      {
        assert b[i][..j + 1] == b[i][..j] + [b[i][j]];
        if b[i][j] == Ship {
          cnt := cnt + 1;
        }
      }
      assert b[i][..N] == b[i];
    }
  }

  lemma {:induction false} CountRowsAfterWrite(b: Board, r: Index, c: Index, v: Cell, x: Cell, n: nat)
    requires n <= N
    ensures CountRows(Write(b, r, c, v), n, x)
            == CountRows(b, n, x)
               - (if r < n && b[r][c] == x then 1 else 0)
               + (if r < n && v == x then 1 else 0)
  {
    if n > 0 {
      CountRowsAfterWrite(b, r, c, v, x, n - 1);
      var b' := Write(b, r, c, v);
      if r == n - 1 {
        assert b'[r] == b[r][c := v];
      } else {
        assert b'[n - 1] == b[n - 1];
      }
    }
  }

  /** Overwriting one cell moves exactly that cell between the counts. */
  lemma CountAfterWrite(b: Board, r: Index, c: Index, v: Cell, x: Cell)
    ensures Count(Write(b, r, c, v), x)
            == Count(b, x) - (if b[r][c] == x then 1 else 0) + (if v == x then 1 else 0)
  {
    CountRowsAfterWrite(b, r, c, v, x, N);
  }

  lemma {:induction false} CountRowsZeroIff(b: Board, n: nat, x: Cell)
    requires n <= N
    ensures CountRows(b, n, x) == 0 <==> forall i, j :: 0 <= i < n && 0 <= j < N ==> b[i][j] != x
  {
    if n > 0 {
      CountRowsZeroIff(b, n - 1, x);
      if multiset(b[n - 1])[x] == 0 {
        var row := b[n - 1];
        forall j | 0 <= j < |row| ensures row[j] != x {
          assert row[j] in multiset(row);
        }
      } else {
        assert x in b[n - 1];
      }
    }
  }

  /** A count is zero exactly when no cell of the board holds that marker. */
  lemma CountZeroIff(b: Board, x: Cell)
    ensures Count(b, x) == 0 <==> forall i, j :: InBounds(i, j) ==> b[i][j] != x
  {
    CountRowsZeroIff(b, N, x);
  }

  /** After init_board no ship cell is left (batalha.c:26-28 with 96-100). */
  lemma InitBoardHasNoShips()
    ensures ShipsLeft(InitBoard()) == 0
    ensures Unattacked(InitBoard()) == N * N
  {
    CountZeroIff(InitBoard(), Ship);
    CountRowsAllWater(InitBoard(), N);
  }

  lemma {:induction false} CountRowsAllWater(b: Board, n: nat)
    requires n <= N
    requires forall i, j :: InBounds(i, j) ==> b[i][j] == Water
    ensures CountRows(b, n, Water) == n * N
  {
    if n > 0 {
      CountRowsAllWater(b, n - 1);
      assert b[n - 1] == seq(N, _ => Water);
      SeqOfWaterCount(N);
    }
  }

  lemma {:induction false} SeqOfWaterCount(m: nat)
    ensures multiset(seq(m, _ => Water))[Water] == m
  {
    if m > 0 {
      SeqOfWaterCount(m - 1);
      assert seq(m, _ => Water) == seq(m - 1, _ => Water) + [Water];
    }
  }
}

=== FILE: placement.dfy ===
/** Ship placement: can_place, place_ship and place_ship_random (batalha.c:20-23, 46-93). */
module Placement {
  import opened Wrappers
  import opened Grid

  /** The four orientations, in the order of the dr/dc tables. */
  datatype Dir = Right | Down | DownRight | UpRight

  /** Row step of an orientation (the dr table). */
  function DR(d: Dir): int {
    match d
    case Right => 0
    case Down => 1
    case DownRight => 1
    case UpRight => -1
  }

  /** Column step of an orientation (the dc table). */
  function DC(d: Dir): int {
    match d
    case Right => 1
    case Down => 0
    case DownRight => 1
    case UpRight => 1
  }

  /** The orientation stored at position i of the dr/dc tables. */
  function DirOf(i: int): (d: Dir)
    requires 0 <= i < 4
    ensures forall d' :: Ord(d') == i <==> d' == d
  {
    if i == 0 then Right else if i == 1 then Down else if i == 2 then DownRight else UpRight
  }

  /** Position of an orientation in the dr/dc tables. */
  function Ord(d: Dir): int {
    match d
    case Right => 0
    case Down => 1
    case DownRight => 2
    case UpRight => 3
  }

  /** Row of the k-th cell of a ship laid from row r along d: r + dr[d]*k, written out per orientation. */
  function RowAt(r: int, d: Dir, k: int): int {
    match d
    case Right => r
    case Down => r + k
    case DownRight => r + k
    case UpRight => r - k
  }

  /** Column of the k-th cell of a ship laid from column c along d: c + dc[d]*k, written out per orientation. */
  function ColAt(c: int, d: Dir, k: int): int {
    match d
    case Down => c
    case _ => c + k
  }

  /** The footprint steps are those of the dr/dc tables. */
  lemma FootprintFollowsTables(r: int, c: int, d: Dir, k: int)
    ensures RowAt(r, d, k) == r + DR(d) * k
    ensures ColAt(c, d, k) == c + DC(d) * k
  {
  }

  /** The k-th footprint cell is on the board. */
  predicate OnBoardAt(r: int, c: int, d: Dir, k: int) {
    InBounds(RowAt(r, d, k), ColAt(c, d, k))
  }

  /** The k-th footprint cell is on the board and is water. */
  predicate FreeAt(b: Board, r: int, c: int, d: Dir, k: int) {
    OnBoardAt(r, c, d, k) && b[RowAt(r, d, k)][ColAt(c, d, k)] == Water
  }

  /** The whole footprint of a ship of the given size is on the board and is water. */
  predicate Fits(b: Board, r: int, c: int, size: nat, d: Dir) {
    forall k :: 0 <= k < size ==> FreeAt(b, r, c, d, k)
  }

  /** The first n footprint cells lie on the board (place_ship's own bounds need). */
  predicate InsideFirst(r: int, c: int, n: nat, d: Dir) {
    forall k :: 0 <= k < n ==> OnBoardAt(r, c, d, k)
  }

  /**
   * Which step k of the footprint could reach (i, j): every orientation moves
   * the column by one per step except Down, which moves the row.
   */
  function StepOf(i: int, j: int, r: int, c: int, d: Dir): int {
    if d == Down then i - r else j - c
  }

  /** Cell (i, j) is one of the first n footprint cells, decided without a search. */
  predicate OnFootprint(i: int, j: int, r: int, c: int, n: nat, d: Dir) {
    var k := StepOf(i, j, r, c, d);
    0 <= k < n && i == RowAt(r, d, k) && j == ColAt(c, d, k)
  }

  /** The k-th footprint cell is found at step k: no direction vector is zero. */
  lemma StepOfCell(r: int, c: int, d: Dir, k: int)
    ensures StepOf(RowAt(r, d, k), ColAt(c, d, k), r, c, d) == k
  {
  }

  /** Footprint membership is exactly "some step k < n lands on the cell". */
  lemma OnFootprintIff(i: int, j: int, r: int, c: int, n: nat, d: Dir)
    ensures OnFootprint(i, j, r, c, n, d)
            <==> exists k :: 0 <= k < n && i == RowAt(r, d, k) && j == ColAt(c, d, k)
  {
    if k :| 0 <= k < n && i == RowAt(r, d, k) && j == ColAt(c, d, k) {
      StepOfCell(r, c, d, k);
    }
  }

  /** Footprint cells are pairwise distinct. */
  lemma FootprintDistinct(r: int, c: int, d: Dir, k1: int, k2: int)
    requires k1 != k2
    ensures RowAt(r, d, k1) != RowAt(r, d, k2) || ColAt(c, d, k1) != ColAt(c, d, k2)
  {
    StepOfCell(r, c, d, k1);
    StepOfCell(r, c, d, k2);
  }

  /** The scan of can_place from step k on: stops at the first cell off the board or not water. */
  function CanPlaceFrom(b: Board, r: int, c: int, size: nat, d: Dir, k: nat): (ok: bool)
    decreases size - k
    ensures ok <==> forall k' :: k <= k' < size ==> FreeAt(b, r, c, d, k')
  {
    if k >= size then true
    else
      var rr := RowAt(r, d, k);
      var cc := ColAt(c, d, k);
      if rr < 0 || rr >= N || cc < 0 || cc >= N then assert !FreeAt(b, r, c, d, k); false
      else if b[rr][cc] != Water then assert !FreeAt(b, r, c, d, k); false
      else CanPlaceFrom(b, r, c, size, d, k + 1)
  }

  /** can_place: true exactly when every footprint cell is on the board and is water. */
  function CanPlace(b: Board, r: int, c: int, size: nat, d: Dir): (ok: bool)
    ensures ok <==> Fits(b, r, c, size, d)
  {
    CanPlaceFrom(b, r, c, size, d, 0)
  }

  /** The loop of place_ship after n steps: footprint cells 0 .. n-1 marked as ship, in step order. */
  function PlaceFirst(b: Board, r: int, c: int, d: Dir, n: nat): Board
    requires InsideFirst(r, c, n, d)
  {
    if n == 0 then b
    else
      assert OnBoardAt(r, c, d, n - 1);
      Write(PlaceFirst(b, r, c, d, n - 1), RowAt(r, d, n - 1), ColAt(c, d, n - 1), Ship)
  }

  /** After n steps exactly the first n footprint cells hold a ship and every other cell is as before. */
  lemma {:induction false} PlaceFirstCells(b: Board, r: int, c: int, d: Dir, n: nat)
    requires InsideFirst(r, c, n, d)
    ensures forall i, j :: InBounds(i, j) ==>
              PlaceFirst(b, r, c, d, n)[i][j] == if OnFootprint(i, j, r, c, n, d) then Ship else b[i][j]
  {
    if n > 0 {
      assert OnBoardAt(r, c, d, n - 1);
      PlaceFirstCells(b, r, c, d, n - 1);
      StepOfCell(r, c, d, n - 1);
    }
  }

  /** place_ship: writes 'S' on the footprint. The source does not re-check bounds, so the caller must. */
  function PlaceShip(b: Board, r: int, c: int, size: nat, d: Dir): (b': Board)
    requires InsideFirst(r, c, size, d)
    ensures forall i, j :: InBounds(i, j) ==>
              b'[i][j] == if OnFootprint(i, j, r, c, size, d) then Ship else b[i][j]
  {
    PlaceFirstCells(b, r, c, d, size);
    PlaceFirst(b, r, c, d, size)
  }

  /** No cell of the board has been shot at: the state of every board during setup. */
  ghost predicate Unshot(b: Board) {
    forall i, j :: InBounds(i, j) ==> !Attacked(b[i][j])
  }

  /** A footprint that fits lies on the board. */
  lemma FitsInside(b: Board, r: int, c: int, n: nat, d: Dir)
    requires Fits(b, r, c, n, d)
    ensures InsideFirst(r, c, n, d)
  {
    forall k | 0 <= k < n ensures OnBoardAt(r, c, d, k) {
      assert FreeAt(b, r, c, d, k);
    }
  }

  /** Writing the k-th footprint cell over water adds one ship cell: earlier steps never touched it. */
  lemma PlaceStepCount(b: Board, r: int, c: int, d: Dir, k: nat)
    requires InsideFirst(r, c, k + 1, d)
    requires OnBoardAt(r, c, d, k) && b[RowAt(r, d, k)][ColAt(c, d, k)] == Water
    ensures ShipsLeft(PlaceFirst(b, r, c, d, k + 1)) == ShipsLeft(PlaceFirst(b, r, c, d, k)) + 1
  {
    var rr: Index, cc: Index := RowAt(r, d, k), ColAt(c, d, k);
    var prev := PlaceFirst(b, r, c, d, k);
    PlaceFirstCells(b, r, c, d, k);
    StepOfCell(r, c, d, k);
    assert prev[rr][cc] == Water;
    assert PlaceFirst(b, r, c, d, k + 1) == Write(prev, rr, cc, Ship);
    CountAfterWrite(prev, rr, cc, Ship, Ship);
  }

  /** Placing a ship that fits raises the ship-cell count by exactly its size. */
  lemma {:induction false} PlaceFirstCount(b: Board, r: int, c: int, d: Dir, n: nat)
    requires Fits(b, r, c, n, d)
    ensures InsideFirst(r, c, n, d)
    ensures ShipsLeft(PlaceFirst(b, r, c, d, n)) == ShipsLeft(b) + n
  {
    FitsInside(b, r, c, n, d);
    if n > 0 {
      PlaceFirstCount(b, r, c, d, n - 1);
      assert FreeAt(b, r, c, d, n - 1);
      assert OnBoardAt(r, c, d, n - 1);
      PlaceStepCount(b, r, c, d, n - 1);
    }
  }

  /** Given can_place, place_ship adds exactly size ship cells. */
  lemma PlaceShipCount(b: Board, r: int, c: int, size: nat, d: Dir)
    requires Fits(b, r, c, size, d)
    ensures InsideFirst(r, c, size, d)
    ensures ShipsLeft(PlaceShip(b, r, c, size, d)) == ShipsLeft(b) + size
  {
    PlaceFirstCount(b, r, c, d, size);
  }

  /** After a ship is committed, no ship whose footprint shares one of its cells can be placed. */
  lemma PlacedShipBlocks(b: Board, r1: int, c1: int, s1: nat, d1: Dir,
                         r2: int, c2: int, s2: nat, d2: Dir, k: nat)
    requires Fits(b, r1, c1, s1, d1)
    requires InsideFirst(r1, c1, s1, d1)
    requires k < s2 && OnFootprint(RowAt(r2, d2, k), ColAt(c2, d2, k), r1, c1, s1, d1)
    ensures !Fits(PlaceShip(b, r1, c1, s1, d1), r2, c2, s2, d2)
  {
    var b' := PlaceShip(b, r1, c1, s1, d1);
    if InBounds(RowAt(r2, d2, k), ColAt(c2, d2, k)) {
      assert b'[RowAt(r2, d2, k)][ColAt(c2, d2, k)] == Ship;
    }
    assert !FreeAt(b', r2, c2, d2, k);
  }

  /** Placement only turns water into ship, so a board nobody has shot at stays so. */
  lemma PlaceShipKeepsUnshot(b: Board, r: int, c: int, size: nat, d: Dir)
    requires InsideFirst(r, c, size, d)
    requires Unshot(b)
    ensures Unshot(PlaceShip(b, r, c, size, d))
  {
  }

  /** An origin and orientation, as drawn by rand() or visited by the fallback scan. */
  datatype Candidate = Candidate(d: Dir, r: Index, c: Index)

  predicate FitsAt(b: Board, size: nat, x: Candidate) {
    Fits(b, x.r, x.c, size, x.d)
  }

  /** The order of the fallback scan: orientation, then row, then column. */
  predicate Before(x: Candidate, y: Candidate) {
    || Ord(x.d) < Ord(y.d)
    || (Ord(x.d) == Ord(y.d) && x.r < y.r)
    || (Ord(x.d) == Ord(y.d) && x.r == y.r && x.c < y.c)
  }

  function PlaceAt(b: Board, size: nat, x: Candidate): (b': Board)
    requires FitsAt(b, size, x)
    ensures ShipsLeft(b') == ShipsLeft(b) + size
    ensures Unshot(b) ==> Unshot(b')
    ensures forall i, j :: InBounds(i, j) ==>
              b'[i][j] == if OnFootprint(i, j, x.r, x.c, size, x.d) then Ship else b[i][j]
  {
    PlaceShipCount(b, x.r, x.c, size, x.d);
    PlaceShip(b, x.r, x.c, size, x.d)
  }

  /** Innermost fallback loop: columns c, c+1, ... of one row and orientation. */
  function ScanCols(b: Board, size: nat, d: Dir, r: Index, c: nat): (res: Option<Candidate>)
    requires c <= N
    decreases N - c
    ensures res.Some? ==> res.value.d == d && res.value.r == r && c <= res.value.c
    ensures res.Some? ==> FitsAt(b, size, res.value)
    ensures res.Some? ==> forall c' :: c <= c' < res.value.c ==> !Fits(b, r, c', size, d)
    ensures res.None? ==> forall c' :: c <= c' < N ==> !Fits(b, r, c', size, d)
  {
    if c == N then None
    else if CanPlace(b, r, c, size, d) then Some(Candidate(d, r, c))
    else ScanCols(b, size, d, r, c + 1)
  }

  /** Middle fallback loop: rows r, r+1, ... of one orientation. */
  function ScanRows(b: Board, size: nat, d: Dir, r: nat): (res: Option<Candidate>)
    requires r <= N
    decreases N - r
    ensures res.Some? ==> res.value.d == d && r <= res.value.r && FitsAt(b, size, res.value)
    ensures res.Some? ==> forall y: Candidate ::
              y.d == d && r <= y.r && Before(y, res.value) ==> !FitsAt(b, size, y)
    ensures res.None? ==> forall y: Candidate :: y.d == d && r <= y.r ==> !FitsAt(b, size, y)
  {
    if r == N then None
    else
      var here := ScanCols(b, size, d, r, 0);
      if here.Some? then
        assert forall y: Candidate :: y.d == d && r <= y.r && Before(y, here.value) ==> y.r == r && y.c < here.value.c;
        here
      else
        assert forall y: Candidate :: y.d == d && y.r == r ==> !FitsAt(b, size, y);
        ScanRows(b, size, d, r + 1)
  }

  /** Outer fallback loop: orientations i, i+1, ... of the dr/dc tables. */
  function ScanDirs(b: Board, size: nat, i: nat): (res: Option<Candidate>)
    requires i <= 4
    decreases 4 - i
    ensures res.Some? ==> i <= Ord(res.value.d) && FitsAt(b, size, res.value)
    ensures res.Some? ==> forall y: Candidate ::
              i <= Ord(y.d) && Before(y, res.value) ==> !FitsAt(b, size, y)
    ensures res.None? ==> forall y: Candidate :: i <= Ord(y.d) ==> !FitsAt(b, size, y)
  {
    if i == 4 then None
    else
      match ScanRows(b, size, DirOf(i), 0)
      case Some(x) => Some(x)
      case None => ScanDirs(b, size, i + 1)
  }

  /**
   * The exhaustive fallback of place_ship_random: the first candidate in scan
   * order that fits, or None when no candidate fits anywhere.
   */
  function Fallback(b: Board, size: nat): (res: Option<Candidate>)
    ensures res.Some? ==> FitsAt(b, size, res.value)
    ensures res.Some? ==> forall y: Candidate :: Before(y, res.value) ==> !FitsAt(b, size, y)
    ensures res.None? ==> forall y: Candidate :: !FitsAt(b, size, y)
  {
    ScanDirs(b, size, 0)
  }

  /** The number of random trials place_ship_random makes before falling back. */
  const MaxAttempts: nat := 1000

  /** The random trials from the i-th on: index of the first draw that fits, or None after the last trial. */
  function RandomPhase(b: Board, size: nat, draws: seq<Candidate>, i: nat): (res: Option<nat>)
    requires i <= MaxAttempts <= |draws|
    decreases MaxAttempts - i
    ensures res.Some? ==> i <= res.value < MaxAttempts && FitsAt(b, size, draws[res.value])
    ensures res.Some? ==> forall j :: i <= j < res.value ==> !FitsAt(b, size, draws[j])
    ensures res.None? ==> forall j :: i <= j < MaxAttempts ==> !FitsAt(b, size, draws[j])
  {
    if i == MaxAttempts then None
    else if CanPlace(b, draws[i].r, draws[i].c, size, draws[i].d) then Some(i)
    else RandomPhase(b, size, draws, i + 1)
  }

  /**
   * The candidate place_ship_random commits, and how many rand() triples it
   * consumed: the first random draw that fits, else the first fit in scan order.
   */
  function ChooseSpot(b: Board, size: nat, draws: seq<Candidate>): (res: (nat, Option<Candidate>))
    requires |draws| >= MaxAttempts
    ensures 1 <= res.0 <= MaxAttempts
    ensures forall j :: 0 <= j < res.0 - 1 ==> !FitsAt(b, size, draws[j])
    ensures res.1.Some? ==> FitsAt(b, size, res.1.value)
    ensures res.1.None? ==> forall x: Candidate :: !FitsAt(b, size, x)
    ensures FitsAt(b, size, draws[res.0 - 1]) ==> res.1 == Some(draws[res.0 - 1])
    ensures !FitsAt(b, size, draws[res.0 - 1]) ==>
              res.0 == MaxAttempts && (res.1.Some? ==> forall y: Candidate :: Before(y, res.1.value) ==> !FitsAt(b, size, y))
  {
    match RandomPhase(b, size, draws, 0)
    case Some(i) => (i + 1, Some(draws[i]))
    case None =>
      assert !FitsAt(b, size, draws[MaxAttempts - 1]);
      (MaxAttempts, Fallback(b, size))
  }

  /** Outcome of place_ship_random: new board, rand() triples consumed, and where the ship went. */
  datatype Trial = Trial(board: Board, used: nat, at: Option<Candidate>)

  /**
   * place_ship_random. draws[j] is the j-th (rand()%4, rand()%N, rand()%N)
   * triple; at most MaxAttempts of them are used before the exhaustive scan.
   * When nothing fits anywhere the board is left as it was.
   */
  function PlaceShipRandom(b: Board, size: nat, draws: seq<Candidate>): (t: Trial)
    requires |draws| >= MaxAttempts
    ensures 1 <= t.used <= MaxAttempts
    ensures (t.used, t.at) == ChooseSpot(b, size, draws)
    ensures t.at.Some? ==> FitsAt(b, size, t.at.value) && t.board == PlaceAt(b, size, t.at.value)
    ensures t.at.None? ==> t.board == b && forall x: Candidate :: !FitsAt(b, size, x)
    ensures (exists x: Candidate :: FitsAt(b, size, x)) ==> ShipsLeft(t.board) == ShipsLeft(b) + size
    ensures Unshot(b) ==> Unshot(t.board)
  {
    var (used, at) := ChooseSpot(b, size, draws);
    Trial(if at.Some? then PlaceAt(b, size, at.value) else b, used, at)
  }
}

=== FILE: turns.dfy ===
/** The alternating turn loop of main, as a state machine (batalha.c:127-172, 230-252). */
module Turns {
  import opened Wrappers
  import opened Grid
  import opened Placement
  import opened Fleet
  import opened Coords
  import opened Combat

  /** Whose shot is next, or who has won. */
  datatype Phase = PlayerTurn | OpponentTurn | PlayerWon | OpponentWon

  /** The two boards and the phase of the loop. */
  datatype Game = Game(phase: Phase, player: Board, cpu: Board)

  predicate Over(g: Game) {
    g.phase == PlayerWon || g.phase == OpponentWon
  }

  /** The loop is entered with the player to shoot first. */
  function Start(player: Board, cpu: Board): (g: Game)
    ensures g.phase == PlayerTurn && g.player == player && g.cpu == cpu
    ensures Inv(g) <==> ShipsLeft(player) > 0 && ShipsLeft(cpu) > 0
  {
    Game(PlayerTurn, player, cpu)
  }

  /**
   * One pass of player_attack's input loop followed by main's victory test.
   * An unreadable line or an already-attacked cell leaves the game as it was
   * (the source asks again); a shot ends the game when the CPU board has no
   * ship cell left, and otherwise hands the turn to the CPU.
   */
  function PlayerMove(g: Game, line: string): (g': Game)
    requires g.phase == PlayerTurn
    ensures g' != g <==> ParseCoord(line).Some?
                         && !Attacked(g.cpu[ParseCoord(line).value.r][ParseCoord(line).value.c])
    ensures g' != g ==> && ParseCoord(line).Some?
                        && var p := ParseCoord(line).value;
                           && Fire(g.cpu, p.r, p.c).Success?
                           && g'.cpu == Fire(g.cpu, p.r, p.c).value.board
                           && g'.player == g.player
                           && g'.phase == (if ShipsLeft(g'.cpu) == 0 then PlayerWon else OpponentTurn)
  {
    match ParseCoord(line)
    case None => g
    case Some(p) =>
      match Fire(g.cpu, p.r, p.c)
      case Failure(_) => g
      case Success(s) => Game(if ShipsLeft(s.board) == 0 then PlayerWon else OpponentTurn, g.player, s.board)
  }

  /**
   * One draw of cpu_attack followed by main's defeat test. A draw on an
   * attacked cell is rejected and drawn again, which leaves the game as it was.
   */
  function CpuMove(g: Game, target: Coord): (g': Game)
    requires g.phase == OpponentTurn
    ensures g' != g <==> !Attacked(g.player[target.r][target.c])
    ensures g' != g ==> && Fire(g.player, target.r, target.c).Success?
                        && g'.player == Fire(g.player, target.r, target.c).value.board
                        && g'.cpu == g.cpu
                        && g'.phase == (if ShipsLeft(g'.player) == 0 then OpponentWon else PlayerTurn)
  {
    match Fire(g.player, target.r, target.c)
    case Failure(_) => g
    case Success(s) => Game(if ShipsLeft(s.board) == 0 then OpponentWon else PlayerTurn, s.board, g.cpu)
  }

  /**
   * One step of the loop. line is the player's next input line and target
   * the CPU's next random cell; each phase reads only its own input, and a
   * finished game takes no further shots.
   */
  function Step(g: Game, line: string, target: Coord): (g': Game)
    ensures Over(g) ==> g' == g
    ensures g'.phase == g.phase ==> g' == g
    ensures g.phase == PlayerTurn ==> g'.player == g.player && g'.phase in {PlayerTurn, OpponentTurn, PlayerWon}
    ensures g.phase == OpponentTurn ==> g'.cpu == g.cpu && g'.phase in {OpponentTurn, PlayerTurn, OpponentWon}
    ensures g.phase == PlayerTurn && g' != g ==> (g'.phase == PlayerWon <==> ShipsLeft(g'.cpu) == 0)
    ensures g.phase == OpponentTurn && g' != g ==> (g'.phase == OpponentWon <==> ShipsLeft(g'.player) == 0)
    ensures g.phase == PlayerTurn ==>
              (g' != g <==> ParseCoord(line).Some?
                            && !Attacked(g.cpu[ParseCoord(line).value.r][ParseCoord(line).value.c]))
    ensures g.phase == PlayerTurn && g' != g ==>
              && ParseCoord(line).Some?
              && var p := ParseCoord(line).value;
                 Fire(g.cpu, p.r, p.c).Success? && g'.cpu == Fire(g.cpu, p.r, p.c).value.board
    ensures g.phase == OpponentTurn ==> (g' != g <==> !Attacked(g.player[target.r][target.c]))
    ensures g.phase == OpponentTurn && g' != g ==>
              Fire(g.player, target.r, target.c).Success? && g'.player == Fire(g.player, target.r, target.c).value.board
  {
    match g.phase
    case PlayerTurn => PlayerMove(g, line)
    case OpponentTurn => CpuMove(g, target)
    case PlayerWon => g
    case OpponentWon => g
  }

  /** Cells of both boards still open to a shot. */
  function Remaining(g: Game): nat {
    Unattacked(g.player) + Unattacked(g.cpu)
  }

  /**
   * The loop invariant: while play goes on both fleets have a ship cell, and
   * a finished game has exactly one fleet destroyed, the loser's.
   */
  predicate Inv(g: Game) {
    match g.phase
    case PlayerTurn => ShipsLeft(g.player) > 0 && ShipsLeft(g.cpu) > 0
    case OpponentTurn => ShipsLeft(g.player) > 0 && ShipsLeft(g.cpu) > 0
    case PlayerWon => ShipsLeft(g.player) > 0 && ShipsLeft(g.cpu) == 0
    case OpponentWon => ShipsLeft(g.player) == 0 && ShipsLeft(g.cpu) > 0
  }

  /** Every step that changes the game fires one shot: one open cell fewer, at most one ship cell fewer. */
  lemma StepProgress(g: Game, line: string, target: Coord)
    ensures var g' := Step(g, line, target);
            g' != g ==> && Remaining(g') == Remaining(g) - 1
                        && ShipsLeft(g'.player) + ShipsLeft(g'.cpu) >= ShipsLeft(g.player) + ShipsLeft(g.cpu) - 1
  {
    if g.phase == PlayerTurn && ParseCoord(line).Some? {
      var p := ParseCoord(line).value;
      if Fire(g.cpu, p.r, p.c).Success? {
        FireCounts(g.cpu, p.r, p.c);
      }
    } else if g.phase == OpponentTurn && Fire(g.player, target.r, target.c).Success? {
      FireCounts(g.player, target.r, target.c);
    }
  }

  /** A step never reopens a cell: every cell already shot keeps its marker. */
  lemma StepKeepsShots(g: Game, line: string, target: Coord)
    ensures var g' := Step(g, line, target);
            forall i, j :: InBounds(i, j) ==>
              && (Attacked(g.player[i][j]) ==> g'.player[i][j] == g.player[i][j])
              && (Attacked(g.cpu[i][j]) ==> g'.cpu[i][j] == g.cpu[i][j])
  {
  }

  /** Each step keeps the invariant. */
  lemma StepKeepsInv(g: Game, line: string, target: Coord)
    requires Inv(g)
    ensures Inv(Step(g, line, target))
  {
    StepProgress(g, line, target);
    if g.phase == PlayerTurn && ParseCoord(line).Some? {
      var p := ParseCoord(line).value;
      if Fire(g.cpu, p.r, p.c).Success? {
        FireCounts(g.cpu, p.r, p.c);
      }
    } else if g.phase == OpponentTurn && Fire(g.player, target.r, target.c).Success? {
      FireCounts(g.player, target.r, target.c);
    }
  }

  /** A board with a ship cell: returns one such cell. */
  lemma ShipCellExists(b: Board) returns (p: Coord)
    requires ShipsLeft(b) > 0
    ensures b[p.r][p.c] == Ship
  {
    CountZeroIff(b, Ship);
    var i, j :| InBounds(i, j) && b[i][j] == Ship;
    p := Coord(i, j);
  }

  /**
   * While play goes on the side to move always has a cell it can shoot:
   * the CPU's rejection sampling has a target, and the player has a line
   * (the printed name of that cell) that is accepted.
   */
  lemma SideToMoveCanShoot(g: Game)
    requires Inv(g) && !Over(g)
    ensures exists p: Coord :: Step(g, Format(p), p) != g
  {
    var p := ShipCellExists(if g.phase == PlayerTurn then g.cpu else g.player);
    ParseFormat(p);
    assert Step(g, Format(p), p) != g;
  }

  /** One player line and one CPU draw per step. */
  datatype Input = Input(line: string, target: Coord)

  /** The game after a sequence of steps. */
  function Run(g: Game, inputs: seq<Input>): (r: Game)
    ensures Over(g) ==> r == g
    ensures Remaining(r) <= Remaining(g)
    ensures Remaining(r) == Remaining(g) ==> r == g
    ensures forall i, j :: InBounds(i, j) ==>
              && (Attacked(g.player[i][j]) ==> r.player[i][j] == g.player[i][j])
              && (Attacked(g.cpu[i][j]) ==> r.cpu[i][j] == g.cpu[i][j])
    decreases |inputs|
  {
    if |inputs| == 0 then g
    else
      StepProgress(g, inputs[0].line, inputs[0].target);
      StepKeepsShots(g, inputs[0].line, inputs[0].target);
      Run(Step(g, inputs[0].line, inputs[0].target), inputs[1..])
  }

  /** How many steps of a run fired a shot. */
  function Shots(g: Game, inputs: seq<Input>): nat
    decreases |inputs|
  {
    if |inputs| == 0 then 0
    else
      var g' := Step(g, inputs[0].line, inputs[0].target);
      (if g' != g then 1 else 0) + Shots(g', inputs[1..])
  }

  /**
   * Every shot closes one of the 2 * N * N cells, so no run fires more shots
   * than there were open cells: the loop cannot go on shooting forever.
   */
  lemma {:induction false} RunShotsBounded(g: Game, inputs: seq<Input>)
    ensures Remaining(Run(g, inputs)) + Shots(g, inputs) == Remaining(g)
    decreases |inputs|
  {
    if |inputs| > 0 {
      StepProgress(g, inputs[0].line, inputs[0].target);
      RunShotsBounded(Step(g, inputs[0].line, inputs[0].target), inputs[1..]);
    }
  }

  /** The invariant holds along every run. */
  lemma {:induction false} RunKeepsInv(g: Game, inputs: seq<Input>)
    requires Inv(g)
    ensures Inv(Run(g, inputs))
    decreases |inputs|
  {
    if |inputs| > 0 {
      StepKeepsInv(g, inputs[0].line, inputs[0].target);
      RunKeepsInv(Step(g, inputs[0].line, inputs[0].target), inputs[1..]);
    }
  }

  /**
   * A game whose boards were both set up at random from fresh boards starts
   * in the invariant with 17 ship cells a side.
   */
  lemma RandomSetupStartsInInv(player: Board, cpu: Board, draws1: seq<Candidate>, draws2: seq<Candidate>)
    requires forall i, j :: InBounds(i, j) ==> player[i][j] == Water && cpu[i][j] == Water
    requires |draws1| >= MaxAttempts * |ShipSizes| && |draws2| >= MaxAttempts * |ShipSizes|
    ensures var g := Start(PlaceFleet(player, ShipSizes, draws1).board, PlaceFleet(cpu, ShipSizes, draws2).board);
            Inv(g) && ShipsLeft(g.player) == 17 && ShipsLeft(g.cpu) == 17
  {
    RandomSetupPlacesFleet(player, draws1);
    RandomSetupPlacesFleet(cpu, draws2);
  }
}

=== FILE: wrappers.dfy ===
/** Small failure-carrying datatypes shared by the game modules. */
module Wrappers {

  /** An optional value: the result of a search or a parse that may find nothing. */
  datatype Option<+T> = None | Some(value: T)

  /** Either a value or the reason an operation was refused. */
  datatype Result<+T, +E> = Success(value: T) | Failure(error: E)
}
